=== FILE: README.md ===
# PulpTriage session model

A Dafny model of the triage-session state machine of the `PulpTriage` chat-bot plugin
(`plugin.py`). The plugin runs a live bug-triage meeting in a chat channel. It tracks who is
present (`triagers`), the issue under discussion (`current_issue`), and which issues were
already passed over (`seen`) or pushed back (`deferred`). It also tracks who asked to be pinged
for which issue (`carers`), the one live proposal, and the cached report list of the Redmine
issue tracker (`triage_issues`). Every command is modelled as a pure function from one session
record to the next, paired with a tag that says which way the command went.

Modules:

- `Wrappers` (`wrappers.dfy`): the `Option` type that stands for Python's value-or-`None`.
- `IssueQueue` (`issue_queue.dfy`): the candidate list `next` builds. It holds the unseen,
  non-deferred ids in tracker order, then the unseen deferred ids in tracker order. It is
  written both as functions and as the single-pass loop of the source, and the two are proved
  equal. The module also holds the `untriaged` filter.
- `Proposals` (`proposals.dfy`): the five `propose` sub-commands and the (kind, description)
  pair each one records.
- `Triage` (`triage.dfy`): the session record built by `_reset`, and one function per command:
  `start`, `end`, `here`, `next`/`skip`, `defer`, `accept`, `propose`, `care`, `issue` and
  `untriaged`. It also holds the quorum test and the implicit join done by every call that
  writes to the meeting minutes.
- `TriageProperties` (`triage_properties.dfy`): properties that relate several calls, such as
  idempotence, overwriting, and how `next` chooses the first issue in line.
- `Commands` (`commands.dfy`): all commands behind one dispatch function, a run of commands,
  and what holds across a whole session.
- `Scenarios` (`scenarios.dfy`): concrete sessions worked through the model.

External inputs are parameters. `Env` carries three of them:

- the configured `quorum_count`;
- the report list the tracker returns, where `None` stands for an answer without an `issues`
  field (plugin.py:381-384);
- the number of detail lines the tracker returns for an announced issue.

The detail-line count matters for state. `_redmine_report_issue` sets the channel topic
through the minutes only when the announced id is truthy and more than one line came back.
Writing to the minutes implicitly joins the caller.

Python truthiness is kept where the source relies on it:

- `defer` records the current issue only when it is set and not 0.
- `care` needs a cached, non-empty list.
- `untriaged` reports "none remain" for a missing or empty list.

## Behaviour worth knowing

- `next` marks the previous issue seen and clears `current_issue` to `None` (plugin.py:176-179)
  before it builds the candidate list. The test `issue == self.current_issue` at line 188
  therefore compares with `None` and never excludes anything. `IssueQueue.CurrentTestRedundant`
  shows that it would exclude nothing even had the issue stayed current.
- `defer` calls `next`, and `next` then marks the deferred issue seen. The loop tests `seen`
  before `deferred` (line 188), so an issue deferred with quorum present never returns from the
  deferred tail. A deferred id reaches the tail only when it was deferred without quorum and
  then replaced through `issue <id>` (`Scenarios.DeferredTailReached`). This contradicts the
  plugin's own comments; see "Findings" below.
- The report list is fetched only when none is cached (lines 182-183), not on every `next`.
- The reported count is the list length minus the number of seen issues (line 199). It is not
  the length of the candidate list, and it can be negative.
- When no list can be had, `next` fails after the previous issue was already marked seen. It
  does not roll back (`ListUnavailable`).
- `accept` of a `needinfo` proposal clears the proposal and advances nothing.
- The plugin keeps no chair set: `start` does not record a chair, and `addchair` calls a method
  the plugin never defines (line 115).

## Model

| member | source | states |
|---|---|---|
| IssueQueue.Select | plugin.py:185-194 | each accumulator of the loop holds exactly the listed ids that are unseen, not current, and deferred (or not deferred) |
| IssueQueue.Candidates | plugin.py:185-194 | the candidate list holds exactly the listed ids that are neither seen nor current, and no deferred id comes before a non-deferred one |
| IssueQueue.PartitionQueue | plugin.py:185-194 | the one-pass loop with two accumulators, joined at the end, computes exactly the candidate list |
| IssueQueue.SelectIsSubsequence | plugin.py:185-194 | each part of the partition keeps the tracker's relative order (a stable partition, not a sort) |
| IssueQueue.CandidatesPermuteUnseen | plugin.py:185-194 | the candidate list is a permutation of the unseen listed ids: nothing is lost or duplicated |
| IssueQueue.CurrentTestRedundant | plugin.py:176-188 | the `== current_issue` test of the loop changes no candidate list when the current issue is already in `seen`, as line 178 makes it before the loop |
| IssueQueue.CandidatesHead | plugin.py:185-201 | the head of the candidate list is the first listed fresh id, or, when every listed id is seen or deferred, the first listed unseen id (which is then deferred) |
| IssueQueue.Unseen | plugin.py:227-228 | the `untriaged` filter keeps exactly the listed ids not yet seen |
| IssueQueue.UnseenIsSubsequence | plugin.py:227-228 | the `untriaged` listing keeps the tracker's order |
| Proposals.TriageText | plugin.py:244-250 | the triage description is "Priority: p, Severity s", followed by " Target Platform Release: r" exactly when a non-empty release r is given, and by nothing otherwise |
| Proposals.Proposed | plugin.py:244-270 | each propose sub-command records the proposal kind of the same name, one kind per sub-command |
| Triage.Here | plugin.py:149-161 | `here` adds the caller to the triagers and changes nothing else; it reports "already joined" exactly when the caller was present |
| Triage.JoinImplicitly | plugin.py:298-300 | after any call that writes to the minutes, the caller is a triager and no other field changed |
| Triage.Announce | plugin.py:279-283 | the announced id becomes current; the caller joins exactly when the id is truthy and its detail has more than one line (the topic write of plugin.py:375-376); nothing else changes |
| Triage.Next | plugin.py:168-204 | without quorum nothing changes. With quorum, the previous issue is added to `seen`, while `deferred`, carers and proposal are kept. The list is fetched only when none is cached, and the new current issue is the head of the candidate list built after that marking, hence listed, unseen and never the previous one. `NoneLeft` comes exactly when every listed id is seen, and the reported count is list length minus seen count. The caller joins exactly when a truthy id with multi-line detail is announced |
| Triage.PickHead | plugin.py:196-204 | the end of `next` announces the head of the candidate list, a listed unseen id, exactly when one exists, and reports list length minus seen count; only the current issue and, through the announcement, the triagers change |
| Triage.Defer | plugin.py:131-136 | the truthy current issue is added to `deferred` whether or not quorum holds. Without quorum nothing else changes and the current issue is kept. With quorum the result is exactly what `next` does to the session with that deferral recorded, so the deferred issue also ends up in `seen` |
| Triage.DeferIntended | plugin.py:131-136 | the corrected `defer` (line 70 and the docstring at line 133 say a deferred issue is handled after all others): the deferral is recorded as in `defer`, the reply is `NoQuorum` exactly without quorum, and with quorum the result is what `next` does once the deferred issue is set aside, so it is not added to `seen` |
| Triage.Propose | plugin.py:272-274 | the new proposal is live and no other field changes |
| Triage.Accept | plugin.py:83-100 | with nothing proposed nothing changes. Otherwise the proposal is cleared and the caller joins; `needinfo` changes nothing else. `triage`, `accept` and `skip` then do exactly what `next` does, and `defer` exactly what `defer` does, to that session: without quorum it is kept as it is (with the deferral recorded for `defer`), with quorum the advance fixes the new current issue (the head of the candidate list), cache, count and reply |
| Triage.Care | plugin.py:123-129 | the caller joins the carers of exactly the named ids on a non-empty cached list; every other carer set, and every other field, is kept |
| Triage.Issue | plugin.py:144-147 | `issue <id>` makes `id` current without marking the replaced issue seen; the caller joins exactly when `id` is truthy with multi-line detail |
| Triage.Start | plugin.py:211-216 | `start` leaves the `_reset` state (`Triage.Reset`, plugin.py:63-79) except that the only triager is the caller and the cache is the freshly fetched list |
| Triage.End | plugin.py:138-142 | `end` leaves every field at its `_reset` value (`Triage.Reset`, plugin.py:63-79), so the caller's implicit join leaves no trace |
| Triage.Untriaged | plugin.py:223-233 | a missing or empty list reports none remaining; otherwise the report lists exactly the unseen listed ids, in tracker order |
| TriageProperties.NextTakesFirstInLine | plugin.py:185-201 | a non-deferred announced issue is the first listed id neither seen nor deferred; a deferred one comes only when all listed ids are seen or deferred, and is the first unseen listed id |
| TriageProperties.UntriagedMatchesQueue | plugin.py:223-228 | the `untriaged` listing and the queue built from the same list hold the same ids, the same number of times |
| TriageProperties.DeferredIssueIsPassedOver | plugin.py:131-136 | with quorum a deferred issue is in both `deferred` and `seen`, so no later candidate list contains it |
| TriageProperties.DeferredIssueReturns | plugin.py:131-136 | with the corrected `defer` and quorum, a listed, unseen current issue stays deferred and unseen: it is either announced at once, only when every other listed id is seen or deferred, or is in the queue of the following `next` |
| TriageProperties.ProposeOverwrites | plugin.py:272-274 | proposing twice in a row leaves exactly the second proposal live |
| TriageProperties.ProposeThenAccept | plugin.py:83-92 | accepting right after a proposal reports that proposal as agreed and leaves none live |
| TriageProperties.HereIdempotent | plugin.py:155-161 | a second `here` by the same nick changes nothing and reports "already joined" |
| TriageProperties.QuorumMonotone | plugin.py:235-238 | `_quorum` (`Triage.Quorum`: at least `quorum_count` triagers) never fails for a larger set of triagers once it holds |
| TriageProperties.CareIdempotent | plugin.py:127-129 | repeating `care` with the same ids changes nothing more |
| TriageProperties.CareIgnoresUnlisted | plugin.py:127-129 | `care` about ids not on the cached list, or with no list cached, leaves the session unchanged |
| TriageProperties.StartDiscardsPriorState | plugin.py:211-216 | `start` keeps nothing of the session it replaces |
| Commands.Dispatch | plugin.py:83-274 | apart from `start` and `end`, which empty the session, no command removes anything from `seen`, `deferred` or the triagers, and at most the caller joins. `start`, `here`, the minutes-only commands and `accept` with a live proposal leave the caller joined; `end` also writes to the minutes but then empties the triagers. Apart from `start` and `end`, only `care` changes carers and only `propose` and `accept` change the proposal |
| Commands.EndForgetsSession | plugin.py:138-142 | after `end`, any run of commands leaves exactly the session it leaves on a freshly loaded plugin, whatever session was ended |
| Commands.SessionSetsOnlyGrow | plugin.py:176-179 | over any run of commands between a `start` and an `end`, `seen`, `deferred` and the triagers only grow |
| Commands.SeenIssueIsNotAnnouncedAgain | plugin.py:187-189 | an issue seen at some point is never announced again by a later `next` in the same session |
| Scenarios.QuorumGatesAdvance | plugin.py:168-174 | with quorum two, one triager cannot advance; after a second joins, `next` takes issue 10 with three reported left |
| Scenarios.DeferAsWritten | plugin.py:131-136 | deferring issue 10 with quorum moves on to 11 and 12 and then finds nothing left; 10 never returns |
| Scenarios.DeferIntendedReturns | plugin.py:131-136 | with the corrected `defer`, deferring 10 gives 11 (3 left), then 12 (2 left), then 10 again (1 left), then nothing left |
| Scenarios.DeferredTailReached | plugin.py:185-194 | an issue deferred without quorum and then replaced by `issue` is offered last, after the fresh issue |

## Left out

- Replies, error messages, minutes text, the channel topic and the nick-pinging of carers.
  These are output only; the model keeps just a tag for the way each command went.
- The calls into the MeetBot plugin (building the minutes message, the meeting lookup with
  its module reload, the date stamp of `start` and its free text). The model keeps only their
  effect on session state: the caller joins.
- `action`, `suggest` and `needhelp` appear only as `Commands.Command.Minutes`. Their sole
  effect on session state is the implicit join.
- The Redmine queries and issue details are replaced by the `Env` parameters described above.
  The report id (registry default 134) only selects which report is fetched.
- `addchair`, because it calls a method the plugin never defines, and `announce`, which
  does nothing.
- The `proposal_timeout` setting, because nothing reads it.
- Argument checking done by the chat framework (positive integers for `care` and `issue`,
  non-empty words for `propose triage`); the model accepts any ids and strings.
- Exceptions from code outside the plugin, other than a report answer without an `issues` field.
- Triage.Untriaged: a report answer that cannot be decoded makes `_redmine_query` raise
  (plugin.py:350-358), and `untriaged` then fails without a reply. `Env` has no value for such an
  answer, so this failure is not modelled. For `start` and `next` the raise leaves
  `triage_issues` at `None`, which is the state the `None` answer already gives.
- Concurrency: the plugin is declared `threaded`, but every command is modelled as one
  atomic step.

## Findings

| source | as written | input that shows it | evidently intended | confidence | as-written member | corrected member |
|---|---|---|---|---|---|---|
| plugin.py:131-136, 176-179, 188 | `defer` adds the current issue to `deferred` and calls `next`, which adds it to `seen`; the loop skips seen ids before it looks at deferred ones, so with quorum a deferred issue is never offered again | report list 10, 11, 12, two triagers, issue 10 current: `defer`, `next`, `next` announce 11, then 12, then "No issues left to triage." | the comment at line 70 and the docstring at line 133: a deferred issue is handled later in the session, after all other issues are seen | high; not executed | TriageProperties.DeferredIssueIsPassedOver, Scenarios.DeferAsWritten | TriageProperties.DeferredIssueReturns, Scenarios.DeferIntendedReturns |

The corrected definition is `Triage.DeferIntended`: with quorum it sets the deferred issue
aside without marking it seen before `next` runs. When that issue is announced again from the
tail, the `next` after it marks it seen as usual. `Commands.Dispatch`, `Triage.Accept` and the
run lemmas keep `Triage.Defer`, because they describe the plugin as it behaves.

=== FILE: commands.dfy ===
/**
 The command surface of the plugin as one dispatch function, and what holds over any run of
 commands within one session (between a `start` and an `end`).
 */
module Commands {
  import opened Wrappers
  import opened IssueQueue
  import T = Triage
  import P = Proposals

  /** The commands that read or change session state. `Minutes` stands for `action`,
      `suggest` and `needhelp`, which only write a line to the minutes. */
  datatype Command =
    | Start
    | End
    | Here
    | Next
    | Skip
    | Defer
    | Accept
    | Propose(request: P.Request)
    | Care(ids: seq<IssueId>)
    | Issue(id: IssueId)
    | Untriaged
    | Minutes

  datatype Reply =
    | Silent
    | Joining(joining: T.Joining)
    | Advancing(advance: T.Advance)
    | Agreeing(agreement: T.Agreement)
    | Proposing(proposal: P.Proposal)
    | Reporting(report: T.Report)

  /** One command, issued by `caller`, applied to the session. */
  function Dispatch(s: T.Session, caller: T.Nick, env: T.Env, cmd: Command): (r: T.Outcome<Reply>)
    ensures !cmd.Start? && !cmd.End? ==>
      && s.seen <= r.session.seen
      && s.deferred <= r.session.deferred
      && s.triagers <= r.session.triagers
      && r.session.triagers - s.triagers <= {caller}
    ensures cmd.Start? || cmd.End? ==>
      && r.session.seen == {} && r.session.deferred == {}
      && r.session.current == None && r.session.proposal == None
    ensures cmd.Start? || cmd.Here? || cmd.Minutes? || (cmd.Accept? && s.proposal.Some?) ==>
      caller in r.session.triagers
    ensures !cmd.Care? && !cmd.Start? && !cmd.End? ==> r.session.carers == s.carers
    ensures !cmd.Propose? && !cmd.Accept? && !cmd.Start? && !cmd.End? ==>
      r.session.proposal == s.proposal
    ensures cmd.Untriaged? ==> r.session == s
  {
    match cmd
    case Start => T.Outcome(T.Start(s, caller, env), Silent)
    case End => T.Outcome(T.End(s, caller), Silent)
    case Here =>
      var o := T.Here(s, caller);
      T.Outcome(o.session, Joining(o.reply))
    case Next =>
      var o := T.Next(s, caller, env);
      AdvanceOnlyGrows(s, caller, env, o);
      T.Outcome(o.session, Advancing(o.reply))
    case Skip =>
      var o := T.Next(s, caller, env);
      AdvanceOnlyGrows(s, caller, env, o);
      T.Outcome(o.session, Advancing(o.reply))
    case Defer =>
      var o := T.Defer(s, caller, env);
      AdvanceOnlyGrows(s.(deferred := s.deferred + T.Deferral(s)), caller, env, o);
      T.Outcome(o.session, Advancing(o.reply))
    case Accept =>
      var o := T.Accept(s, caller, env);
      AcceptOnlyGrows(s, caller, env);
      T.Outcome(o.session, Agreeing(o.reply))
    case Propose(request) =>
      var p := P.Proposed(request);
      T.Outcome(T.Propose(s, p), Proposing(p))
    case Care(ids) => T.Outcome(T.Care(s, caller, ids), Silent)
    case Issue(id) => T.Outcome(T.Issue(s, caller, id, env), Silent)
    case Untriaged => T.Outcome(s, Reporting(T.Untriaged(s, env)))
    case Minutes => T.Outcome(T.JoinImplicitly(s, caller), Silent)
  }

  /** What `Dispatch` needs of an advance: the sets only grow, by at most the caller among
      the triagers, and carers and proposal are kept. */
  lemma AdvanceOnlyGrows(s: T.Session, caller: T.Nick, env: T.Env, o: T.Outcome<T.Advance>)
    requires o.reply == T.NoQuorum ==> o.session == s
    requires o.reply != T.NoQuorum ==> T.AdvancesFrom(s, caller, env, o)
    ensures s.seen <= o.session.seen && s.deferred <= o.session.deferred
    ensures s.triagers <= o.session.triagers && o.session.triagers - s.triagers <= {caller}
    ensures o.session.carers == s.carers && o.session.proposal == s.proposal
  {
  }

  /** What `Dispatch` needs of `accept`: the sets only grow, by at most the caller among the
      triagers, who joins whenever a proposal was live; carers are kept. */
  lemma AcceptOnlyGrows(s: T.Session, caller: T.Nick, env: T.Env)
    ensures var r := T.Accept(s, caller, env).session;
      && s.seen <= r.seen && s.deferred <= r.deferred
      && s.triagers <= r.triagers && r.triagers - s.triagers <= {caller}
      && r.carers == s.carers
      && (s.proposal.Some? ==> caller in r.triagers)
  {
    var o := T.Accept(s, caller, env);
    if s.proposal.Some? && s.proposal.value.kind != P.NeedInfo {
      AdvanceOnlyGrows(T.Routed(s, caller), caller, env, T.Outcome(o.session, o.reply.advance.value));
    }
  }

  /** A command as it arrives: who sent it, and what the outside world answers meanwhile. */
  datatype Event = Event(caller: T.Nick, env: T.Env, command: Command)

  /** The session after a sequence of commands, each run to completion before the next. */
  function Run(s: T.Session, events: seq<Event>): T.Session
    decreases |events|
  {
    if |events| == 0 then s
    else
      var e := events[0];
      Run(Dispatch(s, e.caller, e.env, e.command).session, events[1..])
  }

  /** No `start` and no `end` among the events: they all belong to one session. */
  predicate WithinSession(events: seq<Event>)
  {
    forall i :: 0 <= i < |events| ==> !events[i].command.Start? && !events[i].command.End?
  }

  /** Within one session the seen and deferred sets and the set of triagers only grow. */
  lemma {:induction false} SessionSetsOnlyGrow(s: T.Session, events: seq<Event>)
    requires WithinSession(events)
    ensures s.seen <= Run(s, events).seen
    ensures s.deferred <= Run(s, events).deferred
    ensures s.triagers <= Run(s, events).triagers
    decreases |events|
  {
    if |events| > 0 {
      var e := events[0];
      var s' := Dispatch(s, e.caller, e.env, e.command).session;
      assert WithinSession(events[1..]) by {
        forall i | 0 <= i < |events[1..]|
          ensures !events[1..][i].command.Start? && !events[1..][i].command.End?
        {
          assert events[1..][i] == events[i + 1];
        }
      }
      SessionSetsOnlyGrow(s', events[1..]);
    }
  }

  /** Once an issue is seen, no `next` (or `skip`) later in the same session announces it
      again; only `issue <id>` can make it current again. */
  lemma SeenIssueIsNotAnnouncedAgain(s: T.Session, events: seq<Event>, caller: T.Nick, env: T.Env, c: IssueId)
    requires WithinSession(events) && c in s.seen
    ensures var o := T.Next(Run(s, events), caller, env);
      o.reply.Announced? ==> o.reply.issue != c
  {
    SessionSetsOnlyGrow(s, events);
  }

  /** After `end`, whatever commands follow act exactly as on a freshly loaded plugin: nothing
      of the ended session survives, whoever ends it. */
  lemma EndForgetsSession(s: T.Session, caller: T.Nick, env: T.Env, events: seq<Event>)
    ensures Run(Dispatch(s, caller, env, End).session, events) == Run(T.Reset(), events)
  {
    assert Dispatch(s, caller, env, End).session == T.Reset();
  }
}

=== FILE: issue_queue.dfy ===
/**
 The work queue that `next` derives from the report list of the issue tracker
 (plugin.py, `next`, the loop over `self.triage_issues`), and the filter behind
 `untriaged`. Everything here is a pure function of an already-fetched list.
 */
module IssueQueue {
  import opened Wrappers

  type IssueId = int

  /** Where a listed id lands when the queue is rebuilt: the front part first, the back
      (deferred) part after it. */
  datatype Lane = Fresh | Held

  /** `None` for an id the loop passes over (already seen, or equal to the current issue);
      otherwise the lane it is appended to. The seen test comes first, so an id that is
      both seen and deferred is passed over. */
  function LaneOf(x: IssueId, seen: set<IssueId>, deferred: set<IssueId>, current: Option<IssueId>): Option<Lane>
  {
    if x in seen || current == Some(x) then None
    else if x in deferred then Some(Held)
    else Some(Fresh)
  }

  /** The listed ids that land in `lane`, in list order. */
  function Select(l: seq<IssueId>, seen: set<IssueId>, deferred: set<IssueId>, current: Option<IssueId>, lane: Lane): (r: seq<IssueId>)
    ensures |r| <= |l|
    ensures forall x :: x in r <==> x in l && LaneOf(x, seen, deferred, current) == Some(lane)
    ensures forall i :: 0 <= i < |r| ==> LaneOf(r[i], seen, deferred, current) == Some(lane)
  {
    if |l| == 0 then []
    else
      (if LaneOf(l[0], seen, deferred, current) == Some(lane) then [l[0]] else [])
      + Select(l[1..], seen, deferred, current, lane)
  }

  /** The candidate list of `next`: front ids, then deferred ones, each in tracker order. */
  function Candidates(l: seq<IssueId>, seen: set<IssueId>, deferred: set<IssueId>, current: Option<IssueId>): (r: seq<IssueId>)
    ensures |r| <= |l|
    ensures forall x :: x in r <==> x in l && x !in seen && current != Some(x)
    ensures forall i, j :: 0 <= i < j < |r| && r[i] in deferred ==> r[j] in deferred
  {
    var front := Select(l, seen, deferred, current, Fresh);
    var back := Select(l, seen, deferred, current, Held);
    SelectDisjointCount(l, seen, deferred, current);
    front + back
  }

  /** The ids `untriaged` reports: the listed ids not yet seen, in list order. */
  function Unseen(l: seq<IssueId>, seen: set<IssueId>): (r: seq<IssueId>)
    ensures |r| <= |l|
    ensures forall x :: x in r <==> x in l && x !in seen
  {
    if |l| == 0 then []
    else (if l[0] in seen then [] else [l[0]]) + Unseen(l[1..], seen)
  }

  /** `a` can be obtained from `b` by deleting elements: the order of `b` is kept. */
  predicate IsSubsequence(a: seq<IssueId>, b: seq<IssueId>)
    decreases |b|
  {
    if |a| == 0 then true
    else if |b| == 0 then false
    else (a[0] == b[0] && IsSubsequence(a[1..], b[1..])) || IsSubsequence(a, b[1..])
  }

  /** Each lane together receives no more ids than the list holds. */
  lemma {:induction false} SelectDisjointCount(l: seq<IssueId>, seen: set<IssueId>, deferred: set<IssueId>, current: Option<IssueId>)
    ensures |Select(l, seen, deferred, current, Fresh)| + |Select(l, seen, deferred, current, Held)| <= |l|
  {
    if |l| > 0 {
      SelectDisjointCount(l[1..], seen, deferred, current);
    }
  }

  /** Each lane keeps the tracker's relative order: the partition is stable. */
  lemma {:induction false} SelectIsSubsequence(l: seq<IssueId>, seen: set<IssueId>, deferred: set<IssueId>, current: Option<IssueId>, lane: Lane)
    ensures IsSubsequence(Select(l, seen, deferred, current, lane), l)
  {
    if |l| > 0 {
      SelectIsSubsequence(l[1..], seen, deferred, current, lane);
      var rest := Select(l[1..], seen, deferred, current, lane);
      if LaneOf(l[0], seen, deferred, current) == Some(lane) {
        assert Select(l, seen, deferred, current, lane) == [l[0]] + rest;
        assert ([l[0]] + rest)[1..] == rest;
      } else {
        assert Select(l, seen, deferred, current, lane) == rest;
      }
    }
  }

  /** The `untriaged` listing keeps the tracker's order. */
  lemma {:induction false} UnseenIsSubsequence(l: seq<IssueId>, seen: set<IssueId>)
    ensures IsSubsequence(Unseen(l, seen), l)
  {
    if |l| > 0 {
      UnseenIsSubsequence(l[1..], seen);
      var rest := Unseen(l[1..], seen);
      if l[0] !in seen {
        assert Unseen(l, seen) == [l[0]] + rest;
        assert ([l[0]] + rest)[1..] == rest;
      } else {
        assert Unseen(l, seen) == rest;
      }
    }
  }

  /** Selecting from a concatenation selects from each part: what the appending loop relies on. */
  lemma {:induction false} SelectAppend(a: seq<IssueId>, b: seq<IssueId>, seen: set<IssueId>, deferred: set<IssueId>, current: Option<IssueId>, lane: Lane)
    ensures Select(a + b, seen, deferred, current, lane)
         == Select(a, seen, deferred, current, lane) + Select(b, seen, deferred, current, lane)
  {
    if |a| == 0 {
      assert a + b == b;
    } else {
      assert (a + b)[0] == a[0];
      assert (a + b)[1..] == a[1..] + b;
      SelectAppend(a[1..], b, seen, deferred, current, lane);
    }
  }

  /** One more step of the loop: the prefix grows by one id, which lands in at most one lane. */
  lemma SelectSnoc(l: seq<IssueId>, i: nat, seen: set<IssueId>, deferred: set<IssueId>, current: Option<IssueId>, lane: Lane)
    requires i < |l|
    ensures Select(l[..i + 1], seen, deferred, current, lane)
         == Select(l[..i], seen, deferred, current, lane)
            + (if LaneOf(l[i], seen, deferred, current) == Some(lane) then [l[i]] else [])
  {
    assert l[..i + 1] == l[..i] + [l[i]];
    SelectAppend(l[..i], [l[i]], seen, deferred, current, lane);
    assert Select([l[i]], seen, deferred, current, lane)
        == (if LaneOf(l[i], seen, deferred, current) == Some(lane) then [l[i]] else []) + Select([], seen, deferred, current, lane);
  }

  /** No id is lost or duplicated by the partition: the candidate list is a permutation of the
      unseen ids of the list, when no current issue is excluded. */
  lemma {:induction false} CandidatesPermuteUnseen(l: seq<IssueId>, seen: set<IssueId>, deferred: set<IssueId>)
    ensures multiset(Candidates(l, seen, deferred, None)) == multiset(Unseen(l, seen))
  {
    if |l| > 0 {
      CandidatesPermuteUnseen(l[1..], seen, deferred);
      var x := l[0];
      var f := Select(l[1..], seen, deferred, None, Fresh);
      var h := Select(l[1..], seen, deferred, None, Held);
      var fx := if LaneOf(x, seen, deferred, None) == Some(Fresh) then [x] else [];
      var hx := if LaneOf(x, seen, deferred, None) == Some(Held) then [x] else [];
      assert Select(l, seen, deferred, None, Fresh) == fx + f;
      assert Select(l, seen, deferred, None, Held) == hx + h;
      assert Candidates(l, seen, deferred, None) == fx + f + (hx + h);
      assert Candidates(l[1..], seen, deferred, None) == f + h;
      assert multiset(fx) + multiset(hx) == multiset(if x in seen then [] else [x]);
      assert Unseen(l, seen) == (if x in seen then [] else [x]) + Unseen(l[1..], seen);
    }
  }

  /** In `next` the `issue == current` test of the loop is vacuous because the current issue
      was cleared to `None` just before the loop; the model passes `None` there too. This lemma
      shows more: the test would change nothing even had the issue stayed current, since it
      was marked seen at the same moment. */
  lemma CurrentTestRedundant(l: seq<IssueId>, seen: set<IssueId>, deferred: set<IssueId>, c: IssueId)
    requires c in seen
    ensures Candidates(l, seen, deferred, Some(c)) == Candidates(l, seen, deferred, None)
  {
    SelectSameLanes(l, seen, deferred, Some(c), None, Fresh);
    SelectSameLanes(l, seen, deferred, Some(c), None, Held);
  }

  lemma {:induction false} SelectSameLanes(l: seq<IssueId>, seen: set<IssueId>, deferred: set<IssueId>, c1: Option<IssueId>, c2: Option<IssueId>, lane: Lane)
    requires forall x :: x in l ==> LaneOf(x, seen, deferred, c1) == LaneOf(x, seen, deferred, c2)
    ensures Select(l, seen, deferred, c1, lane) == Select(l, seen, deferred, c2, lane)
  {
    if |l| > 0 {
      assert l[0] in l;
      assert forall x :: x in l[1..] ==> x in l;
      SelectSameLanes(l[1..], seen, deferred, c1, c2, lane);
    }
  }

  /** The head of a lane is the first listed id of that lane. */
  lemma {:induction false} SelectHead(l: seq<IssueId>, seen: set<IssueId>, deferred: set<IssueId>, current: Option<IssueId>, lane: Lane) returns (k: nat)
    requires |Select(l, seen, deferred, current, lane)| > 0
    ensures k < |l| && l[k] == Select(l, seen, deferred, current, lane)[0]
    ensures LaneOf(l[k], seen, deferred, current) == Some(lane)
    ensures forall j :: 0 <= j < k ==> LaneOf(l[j], seen, deferred, current) != Some(lane)
  {
    if LaneOf(l[0], seen, deferred, current) == Some(lane) {
      k := 0;
    } else {
      assert Select(l, seen, deferred, current, lane) == Select(l[1..], seen, deferred, current, lane);
      var k' := SelectHead(l[1..], seen, deferred, current, lane);
      k := k' + 1;
      assert forall j :: 1 <= j < k ==> l[j] == l[1..][j - 1];
    }
  }

  /** The head of the candidate list: the first listed front id when there is one, and
      otherwise the first listed deferred id. */
  lemma CandidatesHead(l: seq<IssueId>, seen: set<IssueId>, deferred: set<IssueId>, current: Option<IssueId>) returns (k: nat)
    requires |Candidates(l, seen, deferred, current)| > 0
    ensures k < |l| && l[k] == Candidates(l, seen, deferred, current)[0]
    ensures l[k] !in deferred ==>
      forall j :: 0 <= j < k ==> l[j] in seen || l[j] in deferred || current == Some(l[j])
    ensures l[k] in deferred ==>
      && (forall x :: x in l ==> x in seen || x in deferred || current == Some(x))
      && (forall j :: 0 <= j < k ==> l[j] in seen || current == Some(l[j]))
  {
    var front := Select(l, seen, deferred, current, Fresh);
    if |front| > 0 {
      k := SelectHead(l, seen, deferred, current, Fresh);
    } else {
      k := SelectHead(l, seen, deferred, current, Held);
      forall x | x in l
        ensures x in seen || x in deferred || current == Some(x)
      {
        assert x !in front;
      }
    }
  }

  /** The loop of `next` as written: one pass over the list, appending each id to the
      front or the deferred accumulator, then joining the two. */
  method PartitionQueue(l: seq<IssueId>, seen: set<IssueId>, deferred: set<IssueId>, current: Option<IssueId>)
    returns (candidates: seq<IssueId>)
    ensures candidates == Candidates(l, seen, deferred, current)
  {
    var front: seq<IssueId> := [];
    var back: seq<IssueId> := [];
    var i := 0;
    while i < |l|
      invariant 0 <= i <= |l|
      invariant front == Select(l[..i], seen, deferred, current, Fresh)
      invariant back == Select(l[..i], seen, deferred, current, Held)
    {
      var x := l[i];
      SelectSnoc(l, i, seen, deferred, current, Fresh);
      SelectSnoc(l, i, seen, deferred, current, Held);
      if x in seen || current == Some(x) {
      } else if x in deferred {
        back := back + [x];
      } else {
        front := front + [x];
      }
      i := i + 1;
    }
    assert l[..|l|] == l;
    candidates := front + back;
  }
}

=== FILE: proposals.dfy ===
/**
 The proposal ledger: the `propose` sub-commands (plugin.py, class `Propose`) and the
 (action, description) pair they record. The action strings of the source form a closed
 set, so they become the constructors of `Kind`.
 */
module Proposals {
  import opened Wrappers

  /** The action names `accept` dispatches on: 'triage', 'accept', 'defer', 'skip', 'needinfo'. */
  datatype Kind = Triage | Accept | Defer | Skip | NeedInfo

  /** A live proposal: its action and the human-readable description that is announced
      when it is proposed and recorded as agreed when it is accepted. */
  datatype Proposal = Proposal(kind: Kind, text: string)

  /** The five `propose` sub-commands with their arguments. Priority and severity are free
      words: the source keeps lists of known values but never checks against them. */
  datatype Request =
    | TriageValues(priority: string, severity: string, release: Option<string>)
    | AcceptAsIs
    | DeferLater
    | SkipForNow
    | NeedMoreInfo

  const AcceptText: string := "Leave the issue as-is, accepting its current state."
  const DeferText: string := "Defer this issue until later in triage."
  const SkipText: string := "Skip this issue for this triage session."
  const NeedInfoText: string := "This issue cannot be triaged without more info."

  /** The description of a `propose triage` request; the release is appended only when it
      is given and non-empty (a Python truthiness test). */
  function TriageText(priority: string, severity: string, release: Option<string>): (t: string)
    ensures var base := "Priority: " + priority + ", Severity " + severity;
      && base <= t
      && (t == base <==> !(release.Some? && release.value != ""))
      && (release.Some? && release.value != "" ==> t[|base|..] == " Target Platform Release: " + release.value)
  {
    var base := "Priority: " + priority + ", Severity " + severity;
    assert "Priority: " + priority + ", Severity " + severity == ("Priority: " + priority) + (", Severity " + severity);
    if release.Some? && release.value != "" then base + " Target Platform Release: " + release.value
    else base
  }

  /** The proposal a request records. */
  function Proposed(req: Request): (p: Proposal)
    ensures p.kind == Triage <==> req.TriageValues?
    ensures p.kind == Accept <==> req.AcceptAsIs?
    ensures p.kind == Defer <==> req.DeferLater?
    ensures p.kind == Skip <==> req.SkipForNow?
    ensures p.kind == NeedInfo <==> req.NeedMoreInfo?
    ensures req.TriageValues? ==> "Priority: " + req.priority <= p.text
  {
    match req
    case TriageValues(priority, severity, release) => Proposal(Triage, TriageText(priority, severity, release))
    case AcceptAsIs => Proposal(Accept, AcceptText)
    case DeferLater => Proposal(Defer, DeferText)
    case SkipForNow => Proposal(Skip, SkipText)
    case NeedMoreInfo => Proposal(NeedInfo, NeedInfoText)
  }
}

=== FILE: scenarios.dfy ===
/**
 Concrete sessions worked through the model: quorum gating, what `defer` does as written,
 the one way a deferred issue reaches the tail of the queue as written, and the same session
 with the intended `defer`.
 */
module Scenarios {
  import opened Wrappers
  import opened IssueQueue
  import opened Triage

  /** The default quorum of two, a report listing issues 10, 11 and 12, multi-line issue details. */
  function Tracker(): Env
  {
    Env(DefaultQuorumCount, Some([10, 11, 12]), 2)
  }

  /** The candidate lists the scenarios below run into, worked out one id at a time. */
  lemma QueueFromStart()
    ensures Candidates([10, 11, 12], {}, {}, None) == [10, 11, 12]
  {
    var seen: set<IssueId> := {};
    var deferred: set<IssueId> := {};
    assert [10, 11, 12][1..] == [11, 12];
    assert [11, 12][1..] == [12];
    assert [12][1..] == [];
    assert Select([12], seen, deferred, None, Fresh) == [12];
    assert Select([12], seen, deferred, None, Held) == [];
  }

  lemma QueueAfterDefer()
    ensures Candidates([10, 11, 12], {10}, {10}, None) == [11, 12]
  {
    var seen: set<IssueId> := {10};
    var deferred: set<IssueId> := {10};
    assert [10, 11, 12][1..] == [11, 12];
    assert [11, 12][1..] == [12];
    assert [12][1..] == [];
    assert Select([12], seen, deferred, None, Fresh) == [12];
    assert Select([12], seen, deferred, None, Held) == [];
  }

  lemma QueueAfterEleven()
    ensures Candidates([10, 11, 12], {10, 11}, {10}, None) == [12]
  {
    var seen: set<IssueId> := {10, 11};
    var deferred: set<IssueId> := {10};
    assert [10, 11, 12][1..] == [11, 12];
    assert [11, 12][1..] == [12];
    assert [12][1..] == [];
    assert Select([12], seen, deferred, None, Fresh) == [12];
    assert Select([12], seen, deferred, None, Held) == [];
  }

  lemma QueueExhausted()
    ensures Candidates([10, 11, 12], {10, 11, 12}, {10}, None) == []
  {
    var seen: set<IssueId> := {10, 11, 12};
    var deferred: set<IssueId> := {10};
    assert [10, 11, 12][1..] == [11, 12];
    assert [11, 12][1..] == [12];
    assert [12][1..] == [];
    assert Select([12], seen, deferred, None, Fresh) == [];
    assert Select([12], seen, deferred, None, Held) == [];
  }

  lemma QueueWithTail()
    ensures Candidates([10, 11, 12], {11}, {10}, None) == [12, 10]
  {
    var seen: set<IssueId> := {11};
    var deferred: set<IssueId> := {10};
    assert [10, 11, 12][1..] == [11, 12];
    assert [11, 12][1..] == [12];
    assert [12][1..] == [];
    assert Select([12], seen, deferred, None, Fresh) == [12];
    assert Select([12], seen, deferred, None, Held) == [];
  }

  lemma QueueTailOnly()
    ensures Candidates([10, 11, 12], {11, 12}, {10}, None) == [10]
  {
    var seen: set<IssueId> := {11, 12};
    var deferred: set<IssueId> := {10};
    assert [10, 11, 12][1..] == [11, 12];
    assert [11, 12][1..] == [12];
    assert [12][1..] == [];
    assert Select([12], seen, deferred, None, Fresh) == [];
    assert Select([12], seen, deferred, None, Held) == [];
  }

  lemma QueueDeferredUnseen()
    ensures Candidates([10, 11, 12], {}, {10}, None) == [11, 12, 10]
  {
    var seen: set<IssueId> := {};
    var deferred: set<IssueId> := {10};
    assert [10, 11, 12][1..] == [11, 12];
    assert [11, 12][1..] == [12];
    assert [12][1..] == [];
    assert Select([12], seen, deferred, None, Fresh) == [12];
    assert Select([12], seen, deferred, None, Held) == [];
  }

  function Pair(): set<Nick>
  {
    {"alice", "bob"}
  }

  function At(current: Option<IssueId>, triagers: set<Nick>, seen: set<IssueId>, deferred: set<IssueId>): Session
  {
    Session(current, triagers, seen, deferred, map[], None, Some([10, 11, 12]))
  }

  /** `next` ends by announcing the head of the queue; when the caller has already joined,
      only the current issue changes. */
  lemma PickAnnounces(s: Session, l: seq<IssueId>, caller: Nick, detailLines: nat, id: IssueId)
    requires s.cache == Some(l) && s.current == None && caller in s.triagers
    requires |Candidates(l, s.seen, s.deferred, None)| > 0 && Candidates(l, s.seen, s.deferred, None)[0] == id
    ensures PickHead(s, l, caller, detailLines) == Outcome(s.(current := Some(id)), Announced(id, |l| - |s.seen|))
  {
  }

  lemma PairHasQuorum()
    ensures Quorum(Pair(), 2)
  {
    assert "alice" != "bob";
  }

  lemma DeferWithQuorumStep()
    ensures Defer(At(Some(10), Pair(), {}, {}), "alice", Tracker())
         == Outcome(At(Some(11), Pair(), {10}, {10}), Announced(11, 2))
  {
    PairHasQuorum();
    QueueAfterDefer();
  }

  lemma NextToTwelveStep()
    ensures Next(At(Some(11), Pair(), {10}, {10}), "alice", Tracker())
         == Outcome(At(Some(12), Pair(), {10, 11}, {10}), Announced(12, 1))
  {
    PairHasQuorum();
    var seen: set<IssueId> := {10, 11};
    assert {10} + AsSet(Some(11)) == seen;
    NextToTwelveStepPick();
  }

  lemma NextToTwelveStepPick()
    ensures PickHead(At(None, Pair(), {10, 11}, {10}), [10, 11, 12], "alice", 2)
         == Outcome(At(Some(12), Pair(), {10, 11}, {10}), Announced(12, 1))
  {
    var s := At(None, Pair(), {10, 11}, {10});
    var seen: set<IssueId> := {10, 11};
    assert s.seen == seen && |seen| == 2;
    assert s.(current := Some(12)) == At(Some(12), Pair(), {10, 11}, {10});
    QueueAfterEleven();
    assert "alice" in Pair();
    PickAnnounces(s, [10, 11, 12], "alice", 2, 12);
  }

  lemma NextExhaustedStep()
    ensures Next(At(Some(12), Pair(), {10, 11}, {10}), "alice", Tracker())
         == Outcome(At(None, Pair(), {10, 11, 12}, {10}), NoneLeft(0))
  {
    PairHasQuorum();
    QueueExhausted();
    var seen: set<IssueId> := {10, 11, 12};
    assert {10, 11} + AsSet(Some(12)) == seen;
    assert |seen| == 3;
  }

  lemma StartStep()
    ensures Start(Reset(), "alice", Tracker()) == At(None, {"alice"}, {}, {})
  {
  }

  lemma AloneStep()
    ensures Next(At(None, {"alice"}, {}, {}), "alice", Tracker()) == Outcome(At(None, {"alice"}, {}, {}), NoQuorum)
  {
    var alone: set<Nick> := {"alice"};
    assert |alone| == 1;
  }

  lemma SecondJoinsStep()
    ensures Here(At(None, {"alice"}, {}, {}), "bob").session == At(None, Pair(), {}, {})
  {
    assert "alice" != "bob";
  }

  lemma FirstIssueStep()
    ensures Next(At(None, Pair(), {}, {}), "bob", Tracker()) == Outcome(At(Some(10), Pair(), {}, {}), Announced(10, 3))
  {
    PairHasQuorum();
    var none: set<IssueId> := {};
    assert {} + AsSet(None) == none;
    FirstIssueStepPick();
  }

  lemma FirstIssueStepPick()
    ensures PickHead(At(None, Pair(), {}, {}), [10, 11, 12], "bob", 2) == Outcome(At(Some(10), Pair(), {}, {}), Announced(10, 3))
  {
    var s := At(None, Pair(), {}, {});
    var seen: set<IssueId> := {};
    assert s.seen == seen && |seen| == 0;
    assert s.(current := Some(10)) == At(Some(10), Pair(), {}, {});
    QueueFromStart();
    assert "bob" in Pair();
    PickAnnounces(s, [10, 11, 12], "bob", 2, 10);
  }

  /** Alice alone has no quorum; once Bob joins, `next` takes issue 10 with three left. */
  lemma QuorumGatesAdvance()
    ensures Next(Start(Reset(), "alice", Tracker()), "alice", Tracker()).reply == NoQuorum
    ensures var s := Here(Start(Reset(), "alice", Tracker()), "bob").session;
      var o := Next(s, "bob", Tracker());
      o.reply == Announced(10, 3) && o.session.current == Some(10)
  {
    StartStep();
    AloneStep();
    SecondJoinsStep();
    FirstIssueStep();
  }

  /** As written, deferring issue 10 with quorum marks it seen too: `next` moves on to 11, then
      12, then finds nothing left, and 10 never comes back. */
  lemma DeferAsWritten()
    ensures var d := Defer(At(Some(10), Pair(), {}, {}), "alice", Tracker());
      && d.reply == Announced(11, 2)
      && d.session.deferred == {10} && d.session.seen == {10}
      && var n := Next(d.session, "alice", Tracker());
      && n.reply == Announced(12, 1)
      && Next(n.session, "alice", Tracker()).reply == NoneLeft(0)
  {
    DeferWithQuorumStep();
    NextToTwelveStep();
    NextExhaustedStep();
  }

  lemma IssueTenStep()
    ensures Issue(Start(Reset(), "alice", Tracker()), "alice", 10, Tracker()) == At(Some(10), {"alice"}, {}, {})
  {
  }

  lemma DeferWithoutQuorumStep()
    ensures Defer(At(Some(10), {"alice"}, {}, {}), "alice", Tracker())
         == Outcome(At(Some(10), {"alice"}, {}, {10}), NoQuorum)
  {
  }

  lemma SwitchAndJoinStep()
    ensures Here(Issue(At(Some(10), {"alice"}, {}, {10}), "alice", 11, Tracker()), "bob").session
         == At(Some(11), Pair(), {}, {10})
  {
  }

  lemma NextPrefersFreshStep()
    ensures Next(At(Some(11), Pair(), {}, {10}), "bob", Tracker())
         == Outcome(At(Some(12), Pair(), {11}, {10}), Announced(12, 2))
  {
    PairHasQuorum();
    var seen: set<IssueId> := {11};
    assert {} + AsSet(Some(11)) == seen;
    NextPrefersFreshStepPick();
  }

  lemma NextPrefersFreshStepPick()
    ensures PickHead(At(None, Pair(), {11}, {10}), [10, 11, 12], "bob", 2)
         == Outcome(At(Some(12), Pair(), {11}, {10}), Announced(12, 2))
  {
    var s := At(None, Pair(), {11}, {10});
    var seen: set<IssueId> := {11};
    assert s.seen == seen && |seen| == 1;
    assert s.(current := Some(12)) == At(Some(12), Pair(), {11}, {10});
    QueueWithTail();
    assert "bob" in Pair();
    PickAnnounces(s, [10, 11, 12], "bob", 2, 12);
  }

  lemma NextTakesTailStep()
    ensures Next(At(Some(12), Pair(), {11}, {10}), "bob", Tracker())
         == Outcome(At(Some(10), Pair(), {11, 12}, {10}), Announced(10, 1))
  {
    PairHasQuorum();
    var seen: set<IssueId> := {11, 12};
    assert {11} + AsSet(Some(12)) == seen;
    NextTakesTailStepPick();
  }

  lemma NextTakesTailStepPick()
    ensures PickHead(At(None, Pair(), {11, 12}, {10}), [10, 11, 12], "bob", 2)
         == Outcome(At(Some(10), Pair(), {11, 12}, {10}), Announced(10, 1))
  {
    var s := At(None, Pair(), {11, 12}, {10});
    var seen: set<IssueId> := {11, 12};
    assert s.seen == seen && |seen| == 2;
    assert s.(current := Some(10)) == At(Some(10), Pair(), {11, 12}, {10});
    QueueTailOnly();
    assert "bob" in Pair();
    PickAnnounces(s, [10, 11, 12], "bob", 2, 10);
  }

  /** A deferral recorded without quorum keeps issue 10 current and unseen; `issue 11` then
      replaces it without marking it seen, so once Bob joins, `next` offers 12 first and 10
      last, from the deferred tail. */
  lemma DeferredTailReached()
    ensures var s0 := Issue(Start(Reset(), "alice", Tracker()), "alice", 10, Tracker());
      var d := Defer(s0, "alice", Tracker());
      && d.reply == NoQuorum && d.session.current == Some(10) && d.session.deferred == {10}
      && var s1 := Here(Issue(d.session, "alice", 11, Tracker()), "bob").session;
      && var n1 := Next(s1, "bob", Tracker());
      && n1.reply == Announced(12, 2)
      && Next(n1.session, "bob", Tracker()).reply == Announced(10, 1)
  {
    IssueTenStep();
    DeferWithoutQuorumStep();
    SwitchAndJoinStep();
    NextPrefersFreshStep();
    NextTakesTailStep();
  }

  lemma DeferIntendedStep()
    ensures DeferIntended(At(Some(10), Pair(), {}, {}), "bob", Tracker())
         == Outcome(At(Some(11), Pair(), {}, {10}), Announced(11, 3))
  {
    PairHasQuorum();
    DeferIntendedStepPick();
  }

  lemma DeferIntendedStepPick()
    ensures PickHead(At(None, Pair(), {}, {10}), [10, 11, 12], "bob", 2)
         == Outcome(At(Some(11), Pair(), {}, {10}), Announced(11, 3))
  {
    var s := At(None, Pair(), {}, {10});
    var seen: set<IssueId> := {};
    assert s.seen == seen && |seen| == 0;
    assert s.(current := Some(11)) == At(Some(11), Pair(), {}, {10});
    QueueDeferredUnseen();
    assert "bob" in Pair();
    PickAnnounces(s, [10, 11, 12], "bob", 2, 11);
  }

  lemma TailExhaustedStep()
    ensures Next(At(Some(10), Pair(), {11, 12}, {10}), "bob", Tracker())
         == Outcome(At(None, Pair(), {10, 11, 12}, {10}), NoneLeft(0))
  {
    PairHasQuorum();
    QueueExhausted();
    var seen: set<IssueId> := {10, 11, 12};
    assert {11, 12} + AsSet(Some(10)) == seen;
    assert |seen| == 3;
  }

  /** With the intended `defer`, deferring issue 10 moves on to 11, then 12, and then offers
      10 again from the deferred tail before the list runs out. */
  lemma DeferIntendedReturns()
    ensures var d := DeferIntended(At(Some(10), Pair(), {}, {}), "bob", Tracker());
      && d.reply == Announced(11, 3)
      && d.session.deferred == {10} && d.session.seen == {}
      && var n1 := Next(d.session, "bob", Tracker());
      && n1.reply == Announced(12, 2)
      && var n2 := Next(n1.session, "bob", Tracker());
      && n2.reply == Announced(10, 1)
      && Next(n2.session, "bob", Tracker()).reply == NoneLeft(0)
  {
    DeferIntendedStep();
    NextPrefersFreshStep();
    NextTakesTailStep();
    TailExhaustedStep();
  }
}

=== FILE: triage.dfy ===
/**
 The in-memory triage session of the PulpTriage plugin (plugin.py, class `PulpTriage`) and
 its commands, each a pure transition from one session record to the next.

 Whatever the commands read from outside is an `Env` parameter: the configured quorum, the
 answer of the issue tracker's report query, and how many lines the tracker returns for the
 issue being announced. Replies, minutes text and topics are not modelled; only the state the
 commands leave behind and a tag saying which way they went.
 */
module Triage {
  import opened Wrappers
  import opened IssueQueue
  import P = Proposals

  /** A chat handle. */
  type Nick = string

  /** The attributes `_reset` initialises. */
  datatype Session = Session(
    current: Option<IssueId>,               // the issue under discussion
    triagers: set<Nick>,                    // nicks taking part
    seen: set<IssueId>,                     // issues already passed over
    deferred: set<IssueId>,                 // issues pushed to the back of the queue
    carers: map<IssueId, set<Nick>>,        // who asked to be pinged for which issue
    proposal: Option<P.Proposal>,           // the one live proposal
    cache: Option<seq<IssueId>>)            // the last fetched report list

  /** What a command learns from outside the session. `reportIssues` is the tracker's report
      list, `None` when the answer carries no `issues` field; `detailLines`
      is the number of lines the tracker returns for the issue being announced. */
  datatype Env = Env(quorumCount: nat, reportIssues: Option<seq<IssueId>>, detailLines: nat)

  /** The registry default of `quorum_count`. */
  const DefaultQuorumCount: nat := 2

  /** The session after a command, and which way the command went. */
  datatype Outcome<+R> = Outcome(session: Session, reply: R)

  /** How `next` (and `skip`, `defer`) ended: refused for lack of quorum, failed because no
      report list is available, found nothing left, or announced an issue. `left` is the count
      the source reports: the list length minus the number of seen issues. */
  datatype Advance = NoQuorum | ListUnavailable | NoneLeft(left: int) | Announced(issue: IssueId, left: int)

  datatype Joining = Joined | AlreadyJoined

  datatype Agreement = NothingProposed | Agreed(proposal: P.Proposal, advance: Option<Advance>)

  /** What `untriaged` reports. A `Listed` report may be empty when every listed issue was seen. */
  datatype Report = NoneRemain | Listed(issues: seq<IssueId>)

  /** The state `_reset` builds, at process start and on `start` and `end`. */
  function Reset(): Session
  {
    Session(None, {}, {}, {}, map[], None, None)
  }

  /** `_quorum`: enough nicks have joined. */
  predicate Quorum(triagers: set<Nick>, quorumCount: nat)
  {
    |triagers| >= quorumCount
  }

  /** Python truthiness of the current issue: `None` and issue 0 are both false. */
  predicate Truthy(current: Option<IssueId>)
  {
    current.Some? && current.value != 0
  }

  function AsSet(current: Option<IssueId>): set<IssueId>
  {
    if current.Some? then {current.value} else {}
  }

  /** `here`: join the session, once. */
  function Here(s: Session, caller: Nick): (r: Outcome<Joining>)
    ensures r.session.triagers == s.triagers + {caller}
    ensures r.reply == AlreadyJoined <==> caller in s.triagers
    ensures r.session.(triagers := s.triagers) == s
  {
    if caller in s.triagers then Outcome(s, AlreadyJoined)
    else Outcome(s.(triagers := s.triagers + {caller}), Joined)
  }

  /** The tail of `_meetbot_call`: whoever makes the plugin write to the minutes joins. */
  function JoinImplicitly(s: Session, caller: Nick): (r: Session)
    ensures caller in r.triagers && s.triagers <= r.triagers
    ensures r.triagers - s.triagers <= {caller}
    ensures r.(triagers := s.triagers) == s
  {
    Here(s, caller).session
  }

  /** `_announce_issue`: make `id` current. Reporting it sets the topic through the minutes,
      which joins the caller, only for a truthy id whose detail has more than one line. */
  function Announce(s: Session, caller: Nick, id: IssueId, detailLines: nat): (r: Session)
    ensures r.current == Some(id)
    ensures r.triagers == (if id != 0 && detailLines > 1 then s.triagers + {caller} else s.triagers)
    ensures r.(current := s.current, triagers := s.triagers) == s
  {
    var s' := s.(current := Some(id));
    if id != 0 && detailLines > 1 then JoinImplicitly(s', caller) else s'
  }

  /** How `next` leaves `s` once quorum holds: the current issue is added to `seen`; the list is
      the cached one, or the fetched one when none was cached; the reply is `ListUnavailable`
      exactly when neither exists; otherwise it reports list length minus seen count, and
      either announces the head of the candidate list, which becomes current, or finds every listed
      issue seen. The caller joins only through the announcement, and nothing else changes. */
  predicate AdvancesFrom(s: Session, caller: Nick, env: Env, r: Outcome<Advance>)
  {
    && r.reply != NoQuorum
    && r.session.seen == s.seen + AsSet(s.current)
    && r.session.deferred == s.deferred
    && r.session.carers == s.carers
    && r.session.proposal == s.proposal
    && r.session.triagers ==
         (if r.reply.Announced? && r.reply.issue != 0 && env.detailLines > 1
          then s.triagers + {caller} else s.triagers)
    && r.session.cache == (if s.cache.Some? then s.cache else env.reportIssues)
    && (r.session.current.Some? <==> r.reply.Announced?)
    && (s.current.Some? ==> r.session.current != s.current)
    && (r.reply == ListUnavailable <==> s.cache.None? && env.reportIssues.None?)
    && (r.reply.NoneLeft? || r.reply.Announced? ==>
          && r.session.cache.Some?
          && r.reply.left == |r.session.cache.value| - |r.session.seen|
          && (r.reply.NoneLeft? <==> forall x :: x in r.session.cache.value ==> x in r.session.seen))
    && (r.reply.Announced? ==>
          && r.session.current == Some(r.reply.issue)
          && r.session.cache.Some?
          && r.reply.issue in r.session.cache.value
          && r.reply.issue !in r.session.seen
          && var q := Candidates(r.session.cache.value, r.session.seen, r.session.deferred, None);
             |q| > 0 && r.reply.issue == q[0])
  }

  /** `next` (and `skip`). Without quorum nothing changes. Otherwise the current issue is marked
      seen before anything else, the report list is fetched only when none is cached, and the
      head of the candidate list becomes current. A missing list fails after the current issue
      was already marked seen. */
  function Next(s: Session, caller: Nick, env: Env): (r: Outcome<Advance>)
    ensures r.reply == NoQuorum <==> !Quorum(s.triagers, env.quorumCount)
    ensures r.reply == NoQuorum ==> r.session == s
    ensures r.reply != NoQuorum ==> AdvancesFrom(s, caller, env, r)
  {
    if !Quorum(s.triagers, env.quorumCount) then Outcome(s, NoQuorum)
    else
      var marked := s.(seen := s.seen + AsSet(s.current), current := None);
      var refreshed := if marked.cache.None? then marked.(cache := env.reportIssues) else marked;
      match refreshed.cache
      case None => Outcome(refreshed, ListUnavailable)
      case Some(l) => PickHead(refreshed, l, caller, env.detailLines)
  }

  /** The end of `next`, once the previous issue is marked seen and a list is at hand: report
      the count left and announce the head of the candidate list, if there is one. */
  function PickHead(s: Session, l: seq<IssueId>, caller: Nick, detailLines: nat): (r: Outcome<Advance>)
    requires s.cache == Some(l) && s.current == None
    ensures r.session.(current := None, triagers := s.triagers) == s
    ensures r.session.triagers ==
      (if r.reply.Announced? && r.reply.issue != 0 && detailLines > 1 then s.triagers + {caller} else s.triagers)
    ensures r.reply.NoneLeft? || r.reply.Announced?
    ensures r.reply.left == |l| - |s.seen|
    ensures r.reply.NoneLeft? <==> forall x :: x in l ==> x in s.seen
    ensures r.session.current.Some? <==> r.reply.Announced?
    ensures r.reply.Announced? ==>
      r.session.current == Some(r.reply.issue) && r.reply.issue in l && r.reply.issue !in s.seen
    ensures r.reply.Announced? ==>
      var q := Candidates(l, s.seen, s.deferred, None); |q| > 0 && r.reply.issue == q[0]
  {
    var candidates := Candidates(l, s.seen, s.deferred, s.current);
    var left := |l| - |s.seen|;
    if |candidates| == 0 then Outcome(s, NoneLeft(left))
    else
      assert candidates[0] in candidates;
      Outcome(Announce(s, caller, candidates[0], detailLines), Announced(candidates[0], left))
  }

  /** The deferral `defer` records before advancing: the current issue, when it is truthy. */
  function Deferral(s: Session): set<IssueId>
  {
    if Truthy(s.current) then {s.current.value} else {}
  }

  /** `defer`: record the current issue as deferred, then run `next`. Without quorum the
      deferral stays recorded and the current issue is kept. With quorum `next` also marks the
      deferred issue seen. */
  function Defer(s: Session, caller: Nick, env: Env): (r: Outcome<Advance>)
    ensures r.session.deferred == s.deferred + Deferral(s)
    ensures r.reply == NoQuorum <==> !Quorum(s.triagers, env.quorumCount)
    ensures r.reply == NoQuorum ==> r.session == s.(deferred := s.deferred + Deferral(s))
    ensures r.reply != NoQuorum ==>
      && AdvancesFrom(s.(deferred := s.deferred + Deferral(s)), caller, env, r)
      && r.session.seen == s.seen + AsSet(s.current)
      && Deferral(s) <= r.session.seen * r.session.deferred
  {
    Next(s.(deferred := s.deferred + Deferral(s)), caller, env)
  }

  /** `defer` as its own documentation describes it: the current issue is put back for later
      in the session, after every other issue. The deferral is recorded as in `Defer`, but with
      quorum the deferred issue is set aside without being marked seen before `next` runs, so it
      stays in the deferred tail of the queue. Without quorum this is `Defer` exactly. */
  function DeferIntended(s: Session, caller: Nick, env: Env): (r: Outcome<Advance>)
    ensures r.session.deferred == s.deferred + Deferral(s)
    ensures r.reply == NoQuorum <==> !Quorum(s.triagers, env.quorumCount)
    ensures r.reply == NoQuorum ==> r.session == s.(deferred := s.deferred + Deferral(s))
    ensures r.reply != NoQuorum ==>
      && r.session.seen == s.seen + (AsSet(s.current) - Deferral(s))
      && AdvancesFrom(s.(deferred := s.deferred + Deferral(s), current := SetAside(s.current)), caller, env, r)
  {
    if !Quorum(s.triagers, env.quorumCount) then Outcome(s.(deferred := s.deferred + Deferral(s)), NoQuorum)
    else
      Next(s.(deferred := s.deferred + Deferral(s), current := SetAside(s.current)), caller, env)
  }

  /** The current issue as the intended `defer` leaves it before advancing: a deferred (truthy)
      issue is dropped without being marked seen; issue 0 is not deferred and is kept. */
  function SetAside(current: Option<IssueId>): Option<IssueId>
  {
    if Truthy(current) then None else current
  }

  /** `Propose.*` / `_set_proposal`: the new proposal replaces whatever was live. */
  function Propose(s: Session, p: P.Proposal): (r: Session)
    ensures r.proposal == Some(p)
    ensures r.(proposal := s.proposal) == s
  {
    s.(proposal := Some(p))
  }

  /** `accept`: with nothing proposed nothing happens. Otherwise the proposal is cleared, the
      caller joins through the minutes, and the proposal's kind picks what follows: `triage`,
      `accept` and `skip` run `next`, `defer` runs `defer`, `needinfo` stops there. */
  function Accept(s: Session, caller: Nick, env: Env): (r: Outcome<Agreement>)
    ensures r.reply == NothingProposed <==> s.proposal.None?
    ensures s.proposal.None? ==> r.session == s
    ensures s.proposal.Some? ==>
      && r.reply.proposal == s.proposal.value
      && r.session.proposal == None
      && caller in r.session.triagers
      && s.triagers <= r.session.triagers
      && r.session.carers == s.carers
      && (r.reply.advance.None? <==> s.proposal.value.kind == P.NeedInfo)
    ensures s.proposal.Some? && s.proposal.value.kind == P.NeedInfo ==>
      r.session == s.(proposal := None, triagers := s.triagers + {caller})
    ensures s.proposal.Some? && s.proposal.value.kind in {P.Triage, P.Accept, P.Skip} ==>
      r.session.deferred == s.deferred
    ensures s.proposal.Some? && s.proposal.value.kind == P.Defer ==>
      r.session.deferred == s.deferred + Deferral(s)
    ensures s.proposal.Some? && s.proposal.value.kind != P.NeedInfo ==>
      var routed := Routed(s, caller);
      && r.reply.advance.Some?
      && (r.reply.advance == Some(NoQuorum) <==> !Quorum(s.triagers + {caller}, env.quorumCount))
      && (r.reply.advance == Some(NoQuorum) ==> r.session == routed)
      && (r.reply.advance != Some(NoQuorum) ==>
            && r.session.seen == s.seen + AsSet(s.current)
            && AdvancesFrom(routed, caller, env, Outcome(r.session, r.reply.advance.value)))
  {
    match s.proposal
    case None => Outcome(s, NothingProposed)
    case Some(p) =>
      var s' := JoinImplicitly(s.(proposal := None), caller);
      match p.kind
      case NeedInfo => Outcome(s', Agreed(p, None))
      case Defer =>
        assert s'.(deferred := s'.deferred + Deferral(s')) == Routed(s, caller);
        var o := Defer(s', caller, env);
        assert Outcome(o.session, o.reply) == o;
        Outcome(o.session, Agreed(p, Some(o.reply)))
      case _ =>
        assert s' == Routed(s, caller);
        var o := Next(s', caller, env);
        assert Outcome(o.session, o.reply) == o;
        Outcome(o.session, Agreed(p, Some(o.reply)))
  }

  /** The session `accept` hands on to `next` or `defer` once a proposal is live: the proposal
      cleared, the caller joined, and for a `defer` proposal the deferral recorded. */
  function Routed(s: Session, caller: Nick): Session
  {
    s.(proposal := None, triagers := s.triagers + {caller},
       deferred := if s.proposal.Some? && s.proposal.value.kind == P.Defer then s.deferred + Deferral(s) else s.deferred)
  }

  /** The truth test of `care`: a cached, non-empty report list that holds the id. */
  predicate OnList(cache: Option<seq<IssueId>>, id: IssueId)
  {
    cache.Some? && |cache.value| > 0 && id in cache.value
  }

  function CarersOf(s: Session, id: IssueId): set<Nick>
  {
    if id in s.carers then s.carers[id] else {}
  }

  /** `care` for one id: when the id is listed, the caller is added to its carers, which start
      out empty for an id nobody cared about yet. */
  function CareOne(s: Session, caller: Nick, id: IssueId): Session
  {
    if OnList(s.cache, id) then s.(carers := s.carers[id := CarersOf(s, id) + {caller}]) else s
  }

  /** `care`: the caller is added to the carers of every listed id it names; unlisted ids,
      and every id when no list is cached, are ignored. */
  function Care(s: Session, caller: Nick, ids: seq<IssueId>): (r: Session)
    ensures r.(carers := s.carers) == s
    ensures forall id :: id in r.carers <==> id in s.carers || (id in ids && OnList(s.cache, id))
    ensures forall id :: id in r.carers ==>
      r.carers[id] == CarersOf(s, id) + (if id in ids && OnList(s.cache, id) then {caller} else {})
    decreases |ids|
  {
    if |ids| == 0 then s
    else Care(CareOne(s, caller, ids[0]), caller, ids[1..])
  }

  /** `issue <id>`: switch to `id`. The replaced issue is not marked seen. */
  function Issue(s: Session, caller: Nick, id: IssueId, env: Env): (r: Session)
    ensures r.current == Some(id)
    ensures r.seen == s.seen && r.deferred == s.deferred && r.proposal == s.proposal
    ensures r.carers == s.carers && r.cache == s.cache
    ensures r.triagers == (if id != 0 && env.detailLines > 1 then s.triagers + {caller} else s.triagers)
  {
    Announce(s, caller, id, env.detailLines)
  }

  /** `start`: discard everything, the caller joins through the minutes, and the report list
      is fetched afresh. */
  function Start(s: Session, caller: Nick, env: Env): (r: Session)
    ensures r.triagers == {caller}
    ensures r.current == None && r.proposal == None && r.carers == map[]
    ensures r.seen == {} && r.deferred == {}
    ensures r.cache == env.reportIssues
  {
    JoinImplicitly(Reset(), caller).(cache := env.reportIssues)
  }

  /** `end`: the caller briefly joins through the minutes, then everything is discarded, so
      the join leaves no trace. */
  function End(s: Session, caller: Nick): (r: Session)
    ensures r.triagers == {} && r.current == None && r.proposal == None && r.carers == map[]
    ensures r.seen == {} && r.deferred == {} && r.cache == None
  {
    Reset()
  }

  /** `untriaged`: fetch the report list afresh and list the ids not yet seen, in tracker
      order. Nothing is reported when the list is missing or empty. */
  function Untriaged(s: Session, env: Env): (r: Report)
    ensures r == NoneRemain <==> env.reportIssues.None? || |env.reportIssues.value| == 0
    ensures r.Listed? ==>
      && env.reportIssues.Some?
      && (forall x :: x in r.issues <==> x in env.reportIssues.value && x !in s.seen)
      && IsSubsequence(r.issues, env.reportIssues.value)
  {
    match env.reportIssues
    case None => NoneRemain
    case Some(l) =>
      if |l| == 0 then NoneRemain
      else
        UnseenIsSubsequence(l, s.seen);
        Listed(Unseen(l, s.seen))
  }
}

=== FILE: triage_properties.dfy ===
/**
 Properties of the session transitions that relate several calls, or a transition to the
 queue it builds.
 */
module TriageProperties {
  import opened Wrappers
  import opened IssueQueue
  import opened Triage
  import P = Proposals

  /** The issue `next` announces is the first listed one it may take: the first id that is
      neither seen nor deferred, or, when every listed id is seen or deferred, the first
      deferred id that is not seen. */
  lemma NextTakesFirstInLine(s: Session, caller: Nick, env: Env)
    requires Next(s, caller, env).reply.Announced?
    ensures var r := Next(s, caller, env);
      var l := r.session.cache.value;
      var id := r.reply.issue;
      && (id !in r.session.deferred ==>
            exists k :: 0 <= k < |l| && l[k] == id &&
              forall j :: 0 <= j < k ==> l[j] in r.session.seen || l[j] in r.session.deferred)
      && (id in r.session.deferred ==>
            && (forall x :: x in l ==> x in r.session.seen || x in r.session.deferred)
            && exists k :: 0 <= k < |l| && l[k] == id &&
                 forall j :: 0 <= j < k ==> l[j] in r.session.seen)
  {
    var marked := s.(seen := s.seen + AsSet(s.current), current := None);
    var refreshed := if marked.cache.None? then marked.(cache := env.reportIssues) else marked;
    var l := refreshed.cache.value;
    assert Next(s, caller, env) == PickHead(refreshed, l, caller, env.detailLines);
    var k := CandidatesHead(l, refreshed.seen, refreshed.deferred, None);
  }

  /** `untriaged` and the queue `next` builds from the same list hold exactly the same ids,
      as many times each: the queue only reorders, putting deferred ids last. */
  lemma UntriagedMatchesQueue(s: Session, env: Env)
    requires Untriaged(s, env).Listed?
    ensures multiset(Untriaged(s, env).issues)
         == multiset(Candidates(env.reportIssues.value, s.seen, s.deferred, None))
  {
    CandidatesPermuteUnseen(env.reportIssues.value, s.seen, s.deferred);
  }

  /** As written, `defer` with quorum marks the deferred issue seen as well, so no later `next`
      in the session can pick it from the deferred tail. */
  lemma DeferredIssueIsPassedOver(s: Session, caller: Nick, env: Env, later: set<IssueId>, l: seq<IssueId>, d: set<IssueId>)
    requires Quorum(s.triagers, env.quorumCount) && Truthy(s.current)
    requires Defer(s, caller, env).session.seen <= later
    ensures s.current.value in Defer(s, caller, env).session.deferred
    ensures s.current.value !in Candidates(l, later, d, None)
  {
  }

  /** With the intended `defer`, a listed issue that was not yet seen is still waiting after
      the deferral: either `next` took it straight back because every other listed issue was
      seen or deferred, or it
      is in the queue the following `next` builds. It is never marked seen on the way. */
  lemma {:induction false} DeferredIssueReturns(s: Session, caller: Nick, env: Env, l: seq<IssueId>)
    requires Quorum(s.triagers, env.quorumCount) && Truthy(s.current)
    requires s.current.value in l && s.current.value !in s.seen
    requires s.cache == Some(l) || (s.cache.None? && env.reportIssues == Some(l))
    ensures var r := DeferIntended(s, caller, env);
      var c := s.current.value;
      && r.reply.Announced?
      && c in r.session.deferred && c !in r.session.seen
      && (r.reply.issue == c ||
          c in Candidates(l, r.session.seen + AsSet(r.session.current), r.session.deferred, None))
      && (r.reply.issue == c ==> forall x :: x in l ==> x in r.session.seen || x in r.session.deferred)
  {
    var c := s.current.value;
    var s' := s.(deferred := s.deferred + {c}, current := None);
    var refreshed := if s'.cache.None? then s'.(cache := env.reportIssues) else s';
    assert refreshed.cache == Some(l);
    assert DeferIntended(s, caller, env) == PickHead(refreshed, l, caller, env.detailLines);
    assert c in Candidates(l, s.seen, s.deferred + {c}, None);
    var k := CandidatesHead(l, s.seen, s.deferred + {c}, None);
  }

  /** Proposing twice in a row leaves exactly the second proposal live. */
  lemma ProposeOverwrites(s: Session, p: P.Proposal, q: P.Proposal)
    ensures Propose(Propose(s, p), q) == Propose(s, q)
  {
  }

  /** A proposal, once accepted, is reported as agreed and is no longer live. */
  lemma ProposeThenAccept(s: Session, p: P.Proposal, caller: Nick, env: Env)
    ensures Accept(Propose(s, p), caller, env).reply.Agreed?
    ensures Accept(Propose(s, p), caller, env).reply.proposal == p
    ensures Accept(Propose(s, p), caller, env).session.proposal == None
  {
  }

  /** `here` is idempotent: the second call finds the nick and changes nothing. */
  lemma HereIdempotent(s: Session, caller: Nick)
    ensures Here(Here(s, caller).session, caller) == Outcome(Here(s, caller).session, AlreadyJoined)
  {
  }

  /** Joining never loses quorum. */
  lemma {:induction false} QuorumMonotone(a: set<Nick>, b: set<Nick>, quorumCount: nat)
    requires a <= b && Quorum(a, quorumCount)
    ensures Quorum(b, quorumCount)
  {
    SubsetCardinality(a, b);
  }

  lemma {:induction false} SubsetCardinality(a: set<Nick>, b: set<Nick>)
    requires a <= b
    ensures |a| <= |b|
    decreases |b|
  {
    if b != {} {
      var x :| x in b;
      SubsetCardinality(a - {x}, b - {x});
    }
  }

  /** `care` is idempotent. */
  lemma CareIdempotent(s: Session, caller: Nick, ids: seq<IssueId>)
    ensures Care(Care(s, caller, ids), caller, ids) == Care(s, caller, ids)
  {
    var once := Care(s, caller, ids);
    var twice := Care(once, caller, ids);
    assert once.cache == s.cache;
    forall id | id in twice.carers
      ensures id in once.carers && twice.carers[id] == once.carers[id]
    {
      if id in ids && OnList(s.cache, id) {
        assert caller in once.carers[id];
      }
    }
    forall id | id in once.carers
      ensures id in twice.carers
    {
    }
    assert twice.carers.Keys == once.carers.Keys;
    assert twice.carers == once.carers;
  }

  /** `care` about ids that are not on the cached list, or with no list cached, changes
      nothing at all. */
  lemma CareIgnoresUnlisted(s: Session, caller: Nick, ids: seq<IssueId>)
    requires forall id :: id in ids ==> !OnList(s.cache, id)
    ensures Care(s, caller, ids) == s
  {
    assert Care(s, caller, ids).carers == s.carers;
  }

  /** `start` keeps nothing of the session it replaces. */
  lemma StartDiscardsPriorState(s: Session, t: Session, caller: Nick, env: Env)
    ensures Start(s, caller, env) == Start(t, caller, env)
  {
  }
}

=== FILE: wrappers.dfy ===
/** The optional value used for Python's `None`-or-value attributes. */
module Wrappers {

  datatype Option<+T> = None | Some(value: T)
}
